=== FILE: README.md ===
# Tech-X-OSINT Pro: the deterministic core, in Dafny

Tech-X-OSINT Pro is a single React component. It runs four simulated
open-source-intelligence scans on a "target" string and keeps a per-user
picture gallery in a Firestore collection. Most of the component is
rendering and Firebase SDK calls. This project models the deterministic
logic inside it as pure functions and one small state machine:

- **Gallery write** (`addImageToGallery`). The `Gallery` module models it as
  `Decide`, which either rejects with a reason or writes a record. There are
  three guards, in this fixed order:
  - the status must be `Connected` (`NotConnected` otherwise);
  - auth must be ready, and the database handle, the user id and a non-empty
    target must all exist (`NotReady` otherwise);
  - the target must start with `"http"` or end with `".jpg"` (`BadShape`
    otherwise).

  The record holds the display name (the target itself, unless the target is
  longer than 50 characters, in which case its first 47 characters and
  `"..."`), the target as `url`, the time as `timestamp`, and the user id as
  `source`. The input box is cleared only after a successful remote write.
- **Snapshot ordering** (the `onSnapshot` callback). The `Snapshot` module
  turns each document into an item and sorts the items newest first. This is
  a stable sort by descending `timestamp`, because JavaScript's
  `Array.prototype.sort` is stable.
- **Connection status** (`initializeFirebase` and the listener effect). The
  `DbStatus` and `Session` modules cover this.
  - The status moves `Initializing` → `Authenticating...` → `Connected`.
  - If anything fails, it goes to `Error`, with the user id `ANON_GUEST` and
    auth still marked ready.
  - Once auth is ready and a database handle and a user id exist, the
    listener attaches. Each delivery then sets `Connected` and the gallery.
    Each delivery error sets `Disconnected`.
  - `getStatusColor` and the gate on the add button are modelled as well.
- **Scans** (`runUsernameScan`, `runEmailScan`, `runHashScan`,
  `runImageScan`, `handleSearch`). The `Scans` module models what each scan
  appends to its log, as line kinds with colours rather than message text:
  - the username counts as found when it is longer than 5 characters;
  - the email breach count is the number of true conditions among
    `"amazon"`, `"linked"`, and `"root"`/`"admin"`;
  - the hash is cracked when it starts with `"8d969eef"`;
  - the image matches when its input contains `"profile"`;
  - the image scan runs on the selected image if there is one, else on the
    target;
  - a search with an empty target does nothing.

`Text` models JavaScript's `startsWith`, `endsWith` and `includes` on
`seq<char>`. It also proves that the scanning `includes` agrees with "occurs
somewhere".

Some behaviours of the code worth stating plainly:

- A status other than `Connected` is rejected as `NotConnected`, before the
  other guards run.
- Within one snapshot, items with equal timestamps keep their snapshot order,
  because the sort is stable.
- A snapshot delivery in the `Error` state moves the status to `Connected`
  when the database handle was assigned before sign-in failed. The guest
  user id `ANON_GUEST` may then write to the gallery.
- The fallback user id is the constant `ANON_GUEST`.

Three further behaviours are stated as properties:

- `Scans.UsernameFoundIff`: Instagram is in the "found on" list but is never
  reported.
- `Scans.ScanSelected`: the "scan selected image" button does nothing while
  the target is empty.
- `Session.SetupFailureIsFinal`: a failure before the database handle exists
  leaves the status at `Error` for good.

## Model

| member | source | states |
|---|---|---|
| Text.StartsWithIffPrefix | TechXOsintPro.jsx:193 | `startsWith` holds exactly when the string is the prefix followed by some rest |
| Text.EndsWithIffSuffix | TechXOsintPro.jsx:212 | `endsWith` holds exactly when the string is some front followed by the suffix |
| Text.ContainsIffOccurs | TechXOsintPro.jsx:159-161 | the left-to-right scan used for `includes` is true exactly when the pattern occurs at some index of the string |
| DbStatus.LabelRoundTrip | TechXOsintPro.jsx:89 | the five stored status strings are distinct: reading a status's label back gives the same status |
| DbStatus.ColourOf | TechXOsintPro.jsx:255-259 | for any stored string, the colour is green exactly for "Connected" and red exactly for "Error" or "Disconnected" (yellow otherwise) |
| DbStatus.ColourOfStatus | TechXOsintPro.jsx:255-259 | in terms of statuses: green iff Connected, red iff Error or Disconnected, yellow iff Initializing or Authenticating |
| DbStatus.AddButtonEnabled | TechXOsintPro.jsx:300 | the add button is enabled exactly when no scan is running and the status colour is green |
| Gallery.ItemOf | TechXOsintPro.jsx:105 | an item built from a document keeps the document id and all the stored fields of the record |
| Gallery.DisplayName | TechXOsintPro.jsx:220 | the name is at most 50 characters; it is the target when that has at most 50 characters, and otherwise exactly 50 characters: the target's first 47 then "..." |
| Gallery.DisplayNameKeepsTargetIff | TechXOsintPro.jsx:220 | the name equals the target if and only if the target has at most 50 characters |
| Gallery.DisplayNameIdempotent | TechXOsintPro.jsx:220 | shortening a display name again leaves it unchanged |
| Gallery.DisplayNameInjectiveOnShort | TechXOsintPro.jsx:220 | two different targets of at most 50 characters get different names |
| Gallery.Decide | TechXOsintPro.jsx:202-224 | not Connected gives NotConnected whatever else holds; Connected but missing auth, db, user id or target gives NotReady; otherwise a write iff the target starts with "http" or ends with ".jpg", else BadShape; a written record has url = target, source = user id, timestamp = now, name = display name of the target |
| Gallery.WriteIff | TechXOsintPro.jsx:203-224 | a write happens if and only if all three guards pass, and every written record is well formed (name derived from url, owner present, image-shaped url) |
| Gallery.GuardOrder | TechXOsintPro.jsx:203-215 | when the status is not Connected the decision does not depend on any other input; an empty target is always rejected and never as BadShape |
| Gallery.LooksLikeImageIsNonEmpty | TechXOsintPro.jsx:207-215 | every target that passes the shape test has at least four characters |
| Gallery.TargetAfterAdd | TechXOsintPro.jsx:225-229 | the input box is cleared when a decided write also succeeded remotely; in every other case it keeps the target |
| Gallery.TargetClearedIff | TechXOsintPro.jsx:203-229 | the input box ends up empty exactly when it was empty, or the status was Connected, auth, db handle, user id and target were all present, the target looked like an image, and the remote write succeeded |
| Snapshot.Insert | TechXOsintPro.jsx:106 | inserting into a newest-first list gives a newest-first list holding the old items plus the new one |
| Snapshot.SortNewestFirst | TechXOsintPro.jsx:106 | the gallery is ordered by non-increasing timestamp and is a permutation (same multiset) of the snapshot's items |
| Snapshot.ItemsOf | TechXOsintPro.jsx:105 | the i-th item is built from the i-th document's id and data |
| Snapshot.GalleryOf | TechXOsintPro.jsx:104-106 | the stored gallery is newest first, as long as the snapshot, and holds the item of every document; it is a permutation of the documents' items |
| Snapshot.InsertKeepsTies | TechXOsintPro.jsx:106 | insertion puts the new item ahead of the items of its own timestamp and leaves the other items of that timestamp in order |
| Snapshot.SortIsStable | TechXOsintPro.jsx:106 | for every timestamp, the items carrying it appear in the gallery in the same order as in the snapshot |
| Snapshot.SortKeepsSorted | TechXOsintPro.jsx:106 | a snapshot already ordered newest first is stored unchanged |
| Snapshot.SortIdempotent | TechXOsintPro.jsx:106 | sorting the stored gallery again changes nothing |
| Snapshot.InsertOldest | TechXOsintPro.jsx:106 | an item older than every item of a newest-first list is placed last |
| Snapshot.SortReversesAppendOrder | TechXOsintPro.jsx:106 | items listed with strictly increasing timestamps (written one after another) come back in exactly the reverse order |
| Session.ListeningIsReady | TechXOsintPro.jsx:98 | the listener attaches under exactly the condition the gallery write's second guard tests, apart from the target |
| Session.ResolvedUserId | TechXOsintPro.jsx:47 | the resolved user id is never empty: it is the current user's uid when there is one, else the generated UUID |
| Session.Step | TechXOsintPro.jsx:35-113 | init start gives Authenticating with a db handle and leaves the user id and auth flag alone; only init start changes the db handle; sign-in gives Connected, auth ready and the user id ResolvedUserId (the current uid, else the UUID); only a snapshot changes the gallery; any failure gives Error with ANON_GUEST and auth ready; a snapshot gives Connected and the sorted gallery and an error gives Disconnected, but only while the listener is attached, and nothing otherwise |
| Session.StepInv | TechXOsintPro.jsx:35-113 | every event keeps the invariant: auth ready iff a user id exists, Authenticating has a db handle, Connected has auth ready, Disconnected or a non-empty gallery needs the listener, and the gallery is newest first |
| Session.InitialInv | TechXOsintPro.jsx:87-89 | the first-render state (Initializing, no user, not ready, empty gallery) satisfies the invariant |
| Session.RunInv | TechXOsintPro.jsx:29-117 | the invariant holds after any sequence of events |
| Session.BootFacts | TechXOsintPro.jsx:29-59 | after initialisation, auth is ready and a user id exists whichever way it ended; the status is Connected after a sign-in, with the user id ResolvedUserId (the current uid, else the UUID), and Error otherwise, with ANON_GUEST; the listener can attach unless setup failed before the db handle existed |
| Session.DeliveriesWhileListening | TechXOsintPro.jsx:98-114 | with the listener attached, the status follows the last delivery (Connected or Disconnected), the gallery is the last successful snapshot sorted newest first, and the user id is unchanged |
| Session.DeliveriesWithoutListener | TechXOsintPro.jsx:98 | without a listener, no delivery changes the state |
| Session.GuestReconnects | TechXOsintPro.jsx:35-109 | after sign-in fails with the db handle already assigned, a successful snapshot turns Error into Connected while the user id stays ANON_GUEST |
| Session.SetupFailureIsFinal | TechXOsintPro.jsx:32-98 | if setup throws before the db handle exists, the status stays Error and the gallery empty whatever is delivered |
| Session.DecideIn | TechXOsintPro.jsx:202-224 | a write from the component's state always carries the current user id as source, and happens only while the listener's guard holds |
| Session.ConnectedMeansReady | TechXOsintPro.jsx:203-215 | in every state a session reaches, Connected implies auth ready, a db handle and a user id; so a write happens iff the status is Connected and the target looks like an image |
| Session.GuestMayWrite | TechXOsintPro.jsx:202-224 | after a failed sign-in and a successful snapshot, an image-shaped target is written with source ANON_GUEST |
| Session.WrittenRecordAppears | TechXOsintPro.jsx:104-109 | a written record, once its document is anywhere in a delivered snapshot, is in the gallery under that document's id, the status is Connected, and the record is well formed; the stored gallery is exactly the sorted items of the snapshot's documents |
| Scans.FoundOnPlatforms | TechXOsintPro.jsx:134 | the "found on" list is non-empty exactly when the target has more than 5 characters, and then holds all four platforms |
| Scans.UsernameLog | TechXOsintPro.jsx:128-149 | the log opens with the start and completion lines; Twitter and GitHub are reported red and Reddit yellow, each iff it is in the found list, and Instagram never; the clean line appears iff the found list is empty; the log has exactly 5 lines for a target longer than 5 characters and 3 otherwise, so no other line appears; when found, the platform lines come in the order Twitter, GitHub, Reddit |
| Scans.UsernameFoundIff | TechXOsintPro.jsx:134-148 | some platform is reported iff the target is longer than 5 characters; Instagram is never reported; the clean line appears iff the target has at most 5 characters |
| Scans.Breaches | TechXOsintPro.jsx:158-161 | each breach is listed iff its condition holds ("amazon"; "linked"; "root" or "admin"), in the order the conditions are checked, and no breach is listed twice |
| Scans.BreachCount | TechXOsintPro.jsx:158-163 | the breach count is the number of true conditions, hence at most 3 |
| Scans.BreachLines | TechXOsintPro.jsx:165-168 | each breach contributes a red line naming it, followed by a yellow line giving its exposure, in list order |
| Scans.BreachLinesMention | TechXOsintPro.jsx:165-168 | the breach lines name a breach iff it is in the list, and never carry a total or a clean line |
| Scans.EmailLog | TechXOsintPro.jsx:151-172 | the log opens with the start line, and its second line is either the clean line or the breach total; when there are breaches, the rest of the log is exactly their name and exposure lines in check order |
| Scans.EmailVerdict | TechXOsintPro.jsx:158-171 | the clean line appears iff the count is 0; a total n appears iff n is the count and positive; a breach is named iff its condition holds; the log has 2 lines when clean and 2 + 2·count otherwise |
| Scans.HashLog | TechXOsintPro.jsx:189-198 | after the start line, exactly one verdict: cracked iff the target starts with "8d969eef", clean otherwise |
| Scans.ImageLog | TechXOsintPro.jsx:174-186 | the match and location lines appear iff the input contains "profile"; the clean line appears iff it does not; the log is exactly 3 lines (start, match, location, in that order) when it matches and 2 lines (start, clean) otherwise, so no other line appears |
| Scans.HandleSearch | TechXOsintPro.jsx:235-247 | an empty target runs nothing; otherwise all four scans run on the target, except that the image scan uses the selected image when one is selected |
| Scans.ScanSelected | TechXOsintPro.jsx:350 | the selected-image button runs a search iff an image is selected and the target is non-empty, and then scans the selected image |
| Scans.ImageVerdictSource | TechXOsintPro.jsx:246 | with a target, the image match is decided by the selected image when one is selected, else by the target |

## Left out

- Firebase SDK calls are left out: `initializeApp`, `getFirestore`, `getAuth`, `signInAnonymously`, `signInWithCustomToken`, `addDoc`, `onSnapshot` and the unsubscribe. They are foreign code, so only their outcomes appear, as events (`Session.Event`, `Session.BootOutcome`, `Session.Delivery`) or as the `writeSucceeded` parameter of `Gallery.TargetAfterAdd`.
- Session.DeliveriesWhileListening: delivery sequences may continue after a `DeliveryFailed`, although Firestore's `onSnapshot` calls nothing after its error callback and the listener effect is not re-run afterwards, so in the program `Disconnected` is final. The model allows more sequences than the SDK produces; every lemma holds for all of them.
- `Date.now()` and `crypto.randomUUID()` are parameters (`now`, `Session.Uuid`), because they are a clock and a random source.
- The collection path `artifacts/{appId}/users/{userId}/osint_gallery` and the `appId`, config and token globals are left out: they only address the remote store.
- React hooks, the effect lifecycle, JSX, styles, `alert`, `console` output, the `LogLine` colour classes and `clearLogs` are left out as presentation. The model returns each scan's complete new log instead.
- Log message text, including the emoji, is left out. Lines are modelled by their kind and colour.
- The `setTimeout` delays, `isLoading` and `Promise.all` in `handleSearch` are timing and concurrency. The four logs are modelled as independent results.
- Session.Step: a `getAuth` throw after `getFirestore` succeeded is not a separate event. It leaves a db handle with no `Authenticating...` status. `SignInFailed` covers the same consequence: a db handle, `Error`, `ANON_GUEST`, and a listener that can attach.
- Session.Step: a re-run of the listener effect that only re-subscribes, after `userId` changes, is not modelled. The model keeps one listener whose guard is re-evaluated at each delivery.
- Snapshot.SortNewestFirst: timestamps are mathematical integers. A document without a numeric `timestamp` would make the comparator return `NaN`, and that case is not modelled. Every record this component writes has a timestamp.
- Gallery.DisplayName: strings are `seq<char>`, where a `char` is a Unicode scalar value. JavaScript's `length` and `substring` count UTF-16 code units, so for a target with characters outside the Basic Multilingual Plane the length test and the 47-character cut differ from the source.
- Scans.FoundOnPlatforms: the `target.length > 5` test counts Unicode scalar values, not UTF-16 code units, for the same reason. So does every other length or index test on strings in the model: the empty-target tests, `startsWith`, `endsWith` and `includes`.
- A missing user id (`null`) and a missing `auth.currentUser?.uid` are both modelled as the empty string, which is falsy in JavaScript just like `null`.

=== FILE: db_status.dfy ===
/**
 The connection status the dashboard shows in its header (`dbStatus`): its
 five values, the exact labels the component stores, the colour
 `getStatusColor` gives a label, and the gate on the "add to gallery" button.
 */
module DbStatus {

  import opened Optional

  datatype Status = Initializing | Authenticating | Connected | Error | Disconnected
  {
    /** The string the component stores in `dbStatus` for this status. */
    function Label(): string
    {
      match this
      case Initializing => "Initializing"
      case Authenticating => "Authenticating..."
      case Connected => "Connected"
      case Error => "Error"
      case Disconnected => "Disconnected"
    }
  }

  /** Reads a stored label back; any other string is not a status. */
  function ParseLabel(stored: string): (st: Option<Status>)
    ensures st.Some? ==> st.value.Label() == stored
  {
    if stored == "Initializing" then Some(Initializing)
    else if stored == "Authenticating..." then Some(Authenticating)
    else if stored == "Connected" then Some(Connected)
    else if stored == "Error" then Some(Error)
    else if stored == "Disconnected" then Some(Disconnected)
    else None
  }

  /** Labels are distinct, so comparing labels is comparing statuses. */
  lemma LabelRoundTrip(st: Status)
    ensures ParseLabel(st.Label()) == Some(st)
  {
  }

  /** The three text colours of the status indicator. */
  datatype Colour = Green | Red | Yellow

  /** `getStatusColor`: it compares the stored string, so it accepts any label. */
  function ColourOf(stored: string): (c: Colour)
    ensures c == Green <==> stored == Connected.Label()
    ensures c == Red <==> stored == Error.Label() || stored == Disconnected.Label()
  {
    if stored == "Connected" then Green
    else if stored == "Error" || stored == "Disconnected" then Red
    else Yellow
  }

  /** The status colour as a function of the status itself. */
  lemma ColourOfStatus(st: Status)
    ensures ColourOf(st.Label()) == Green <==> st == Connected
    ensures ColourOf(st.Label()) == Red <==> st == Error || st == Disconnected
    ensures ColourOf(st.Label()) == Yellow <==> st == Initializing || st == Authenticating
  {
  }

  /** The "add picture" button is enabled unless a scan is running or the status is not `Connected`. */
  function AddButtonEnabled(st: Status, isLoading: bool): (enabled: bool)
    ensures enabled <==> !isLoading && ColourOf(st.Label()) == Green
  {
    !(isLoading || st.Label() != "Connected")
  }
}

=== FILE: gallery.dfy ===
/**
 The gallery write path of the dashboard (`addImageToGallery`): the three
 guards that run before a write, in their fixed order, and the record a
 successful call hands to the remote collection.
 */
module Gallery {

  import opened Text
  import opened DbStatus

  /** A gallery document as written: display name, the raw target, the creation time, the owner. */
  datatype Record = Record(name: string, url: string, timestamp: int, source: string)

  /** A gallery item as the snapshot listener builds it: the document id plus its fields. */
  datatype Item = Item(id: string, name: string, url: string, timestamp: int, source: string)

  /** `{ id: doc.id, ...doc.data() }` for a document holding `r`. */
  function ItemOf(id: string, r: Record): (it: Item)
    ensures it.id == id && RecordOf(it) == r
  {
    Item(id, r.name, r.url, r.timestamp, r.source)
  }

  /** The stored fields of an item, without its id. */
  function RecordOf(it: Item): Record
  {
    Record(it.name, it.url, it.timestamp, it.source)
  }

  /** Why a call to add a picture wrote nothing. */
  datatype Reason =
    | NotConnected  // the status is not `Connected`
    | NotReady      // auth not ready, no database handle, no user id, or an empty target
    | BadShape      // the target neither starts with "http" nor ends with ".jpg"

  datatype Decision = Reject(reason: Reason) | Write(record: Record)

  /** Targets longer than this are shortened for display. */
  const NameLimit: nat := 50
  /** How many leading characters a shortened name keeps. */
  const KeptPrefix: nat := 47
  const Ellipsis: string := "..."

  /** The display name: the target itself, or its first 47 characters and "..." when it is longer than 50. */
  function DisplayName(target: string): (name: string)
    ensures |name| <= NameLimit
    ensures |target| <= NameLimit ==> name == target
    ensures |target| > NameLimit ==>
              |name| == NameLimit && name[..KeptPrefix] == target[..KeptPrefix] && name[KeptPrefix..] == Ellipsis
  {
    if |target| > NameLimit then target[..KeptPrefix] + Ellipsis else target
  }

  /** The name is the target exactly when no shortening was needed. */
  lemma DisplayNameKeepsTargetIff(target: string)
    ensures DisplayName(target) == target <==> |target| <= NameLimit
  {
  }

  /** Shortening a display name again changes nothing. */
  lemma DisplayNameIdempotent(target: string)
    ensures DisplayName(DisplayName(target)) == DisplayName(target)
  {
  }

  /** Two targets of at most 50 characters never share a display name. */
  lemma DisplayNameInjectiveOnShort(a: string, b: string)
    requires |a| <= NameLimit && |b| <= NameLimit && a != b
    ensures DisplayName(a) != DisplayName(b)
  {
  }

  /** The third guard: the target looks like an image URL or a `.jpg` file name. */
  predicate LooksLikeImage(target: string)
  {
    StartsWith(target, "http") || EndsWith(target, ".jpg")
  }

  /** The second guard: auth is ready, the database handle exists, there is a user id and a target. */
  predicate Ready(authReady: bool, dbPresent: bool, userId: string, target: string)
  {
    authReady && dbPresent && userId != "" && target != ""
  }

  /**
   The decision `addImageToGallery` takes before it calls the remote store.
   A missing `userId` (JavaScript `null`) is the empty string, which is falsy
   like `null`; `now` is the value `Date.now()` returns.
   */
  function Decide(status: Status, authReady: bool, dbPresent: bool, userId: string, target: string, now: int)
    : (d: Decision)
    ensures status != Connected ==> d == Reject(NotConnected)
    ensures status == Connected && !Ready(authReady, dbPresent, userId, target) ==> d == Reject(NotReady)
    ensures status == Connected && Ready(authReady, dbPresent, userId, target) ==>
              (d.Write? <==> LooksLikeImage(target)) && (d.Reject? ==> d.reason == BadShape)
    ensures d.Write? ==>
              && d.record.url == target
              && d.record.source == userId
              && d.record.timestamp == now
              && d.record.name == DisplayName(target)
  {
    if status.Label() != "Connected" then Reject(NotConnected)
    else if !authReady || !dbPresent || userId == "" || target == "" then Reject(NotReady)
    else if !StartsWith(target, "http") && !EndsWith(target, ".jpg") then Reject(BadShape)
    else Write(Record(DisplayName(target), target, now, userId))
  }

  /** A record as a successful call writes it: its name is the display name of its url and it has an owner. */
  predicate WellFormed(r: Record)
  {
    r.name == DisplayName(r.url) && r.source != "" && LooksLikeImage(r.url)
  }

  /** A write happens exactly when all three guards pass, and what it writes is well formed. */
  lemma WriteIff(status: Status, authReady: bool, dbPresent: bool, userId: string, target: string, now: int)
    ensures Decide(status, authReady, dbPresent, userId, target, now).Write?
            <==> status == Connected && Ready(authReady, dbPresent, userId, target) && LooksLikeImage(target)
    ensures Decide(status, authReady, dbPresent, userId, target, now).Write? ==>
              WellFormed(Decide(status, authReady, dbPresent, userId, target, now).record)
  {
  }

  /**
   The guards run in order: when the status is not `Connected` the answer is
   the same whatever the rest of the inputs are, and an empty target is
   never reported as badly shaped.
   */
  lemma GuardOrder(status: Status, a1: bool, d1: bool, u1: string, t1: string, n1: int,
                   a2: bool, d2: bool, u2: string, t2: string, n2: int)
    ensures status != Connected ==> Decide(status, a1, d1, u1, t1, n1) == Decide(status, a2, d2, u2, t2, n2)
    ensures Decide(status, a1, d1, u1, "", n1).Reject?
    ensures Decide(status, a1, d1, u1, "", n1).reason != BadShape
  {
  }

  /** The second guard's emptiness test is subsumed by the third: every image-looking target is non-empty. */
  lemma LooksLikeImageIsNonEmpty(target: string)
    ensures LooksLikeImage(target) ==> |target| >= 4
  {
  }

  /** The target the input box holds after the call: cleared only when the remote write succeeded. */
  function TargetAfterAdd(target: string, d: Decision, writeSucceeded: bool): (after: string)
    ensures after == "" <==> (d.Write? && writeSucceeded) || target == ""
    ensures after != "" ==> after == target
  {
    if d.Write? && writeSucceeded then "" else target
  }

  /**
   After a call, the input box is empty exactly when it was empty already or
   all three guards passed and the remote write succeeded.
   */
  lemma TargetClearedIff(status: Status, authReady: bool, dbPresent: bool, userId: string, target: string,
                         now: int, writeSucceeded: bool)
    ensures TargetAfterAdd(target, Decide(status, authReady, dbPresent, userId, target, now), writeSucceeded) == ""
            <==> target == ""
                 || (writeSucceeded && status == Connected
                     && Ready(authReady, dbPresent, userId, target) && LooksLikeImage(target))
  {
    WriteIff(status, authReady, dbPresent, userId, target, now);
  }
}

=== FILE: optional.dfy ===
/** The usual Some/None datatype, for values that may be absent. */
module Optional {

  datatype Option<+T> = None | Some(value: T)
}

=== FILE: scans.dfy ===
/**
 The four simulated scans and the search button that runs them. Each scan
 decides from fixed string tests which lines it appends to its log; a line
 is modelled by what it reports and its colour, not by its wording.
 */
module Scans {

  import opened Text

  /**
   The colour a log line is tagged with: `'blue'` is Info, `'green'`
   Success, `'yellow'` Warning and `'red'` Critical.
   */
  datatype Severity = Info | Success | Warning | Critical

  datatype Platform = Twitter | GitHub | Reddit | Instagram

  /** The three simulated breaches, in the order the email scan checks them. */
  datatype Breach = Amazon2020 | LinkedIn2016 | DataLeak2023

  /** What a log line reports. */
  datatype Kind =
    | Started                 // the opening line of every scan
    | Complete                // the username scan finished
    | FoundOn(p: Platform)    // the username was found on a platform
    | NoProfiles              // the username was found nowhere
    | BreachTotal(n: nat)     // the email appears in n breaches
    | BreachedBy(b: Breach)   // one breach by name
    | Exposed(b: Breach)      // what that breach exposed
    | NoBreaches              // the email is clean
    | Cracked                 // the hash is a known password
    | HashUnknown             // the hash is not in the lists
    | ImageMatched            // the image was matched
    | ExifHint                // location metadata found for the matched image
    | ImageUnmatched          // no image matches

  datatype Line = Line(kind: Kind, severity: Severity)

  // ----- Username scan -----

  /** Where the username scan claims the target was found; `runUsernameScan`'s `['None']` is the empty list. */
  function FoundOnPlatforms(target: string): (ps: seq<Platform>)
    ensures |ps| > 0 <==> |target| > 5
    ensures |target| > 5 ==> Twitter in ps && GitHub in ps && Reddit in ps && Instagram in ps
  {
    if |target| > 5 then [Twitter, GitHub, Reddit, Instagram] else []
  }

  /** The lines `runUsernameScan` appends to its log. */
  function UsernameLog(target: string): (log: seq<Line>)
    ensures |log| >= 3 && log[0] == Line(Started, Info) && log[1] == Line(Complete, Success)
    ensures |log| == (if |target| > 5 then 5 else 3)
    ensures |target| > 5 ==>
              log[2..] == [Line(FoundOn(Twitter), Critical), Line(FoundOn(GitHub), Critical), Line(FoundOn(Reddit), Warning)]
    ensures forall p :: Line(FoundOn(p), Critical) in log <==> p in FoundOnPlatforms(target) && (p == Twitter || p == GitHub)
    ensures forall p :: Line(FoundOn(p), Warning) in log <==> p in FoundOnPlatforms(target) && p == Reddit
    ensures Line(NoProfiles, Success) in log <==> |FoundOnPlatforms(target)| == 0
  {
    var ps := FoundOnPlatforms(target);
    [Line(Started, Info), Line(Complete, Success)]
      + (if Twitter in ps then [Line(FoundOn(Twitter), Critical)] else [])
      + (if GitHub in ps then [Line(FoundOn(GitHub), Critical)] else [])
      + (if Reddit in ps then [Line(FoundOn(Reddit), Warning)] else [])
      + (if |ps| == 0 then [Line(NoProfiles, Success)] else [])
  }

  /**
   The username is reported found exactly when it is longer than five
   characters, and Instagram, although in the list, is never reported.
   */
  lemma UsernameFoundIff(target: string)
    ensures (exists p :: Line(FoundOn(p), Critical) in UsernameLog(target)) <==> |target| > 5
    ensures Line(FoundOn(Instagram), Critical) !in UsernameLog(target)
    ensures Line(FoundOn(Instagram), Warning) !in UsernameLog(target)
    ensures Line(NoProfiles, Success) in UsernameLog(target) <==> |target| <= 5
  {
    if |target| > 5 {
      assert Line(FoundOn(Twitter), Critical) in UsernameLog(target);
    }
  }

  // ----- Email scan -----

  /** Where a breach stands in the order the email scan checks them. */
  function CheckOrder(b: Breach): nat
  {
    match b
    case Amazon2020 => 0
    case LinkedIn2016 => 1
    case DataLeak2023 => 2
  }

  /** The breaches `runEmailScan` pushes, in order. */
  function Breaches(target: string): (bs: seq<Breach>)
    ensures Amazon2020 in bs <==> Contains(target, "amazon")
    ensures LinkedIn2016 in bs <==> Contains(target, "linked")
    ensures DataLeak2023 in bs <==> Contains(target, "root") || Contains(target, "admin")
    ensures forall i, j :: 0 <= i < j < |bs| ==> CheckOrder(bs[i]) < CheckOrder(bs[j])
    ensures forall i, j :: 0 <= i < j < |bs| ==> bs[i] != bs[j]
  {
    (if Contains(target, "amazon") then [Amazon2020] else [])
      + (if Contains(target, "linked") then [LinkedIn2016] else [])
      + (if Contains(target, "root") || Contains(target, "admin") then [DataLeak2023] else [])
  }

  function Indicator(b: bool): nat
  {
    if b then 1 else 0
  }

  /** The breach count is the number of the three conditions that hold, so at most three. */
  lemma BreachCount(target: string)
    ensures |Breaches(target)| == Indicator(Contains(target, "amazon"))
                                 + Indicator(Contains(target, "linked"))
                                 + Indicator(Contains(target, "root") || Contains(target, "admin"))
    ensures |Breaches(target)| <= 3
  {
  }

  /** One red line naming each breach, followed by a yellow line saying what it exposed. */
  function BreachLines(bs: seq<Breach>): (log: seq<Line>)
    ensures |log| == 2 * |bs|
    ensures forall i :: 0 <= i < |bs| ==>
              log[2 * i] == Line(BreachedBy(bs[i]), Critical) && log[2 * i + 1] == Line(Exposed(bs[i]), Warning)
  {
    if |bs| == 0 then []
    else [Line(BreachedBy(bs[0]), Critical), Line(Exposed(bs[0]), Warning)] + BreachLines(bs[1..])
  }

  /** The lines `runEmailScan` appends to its log. */
  function EmailLog(target: string): (log: seq<Line>)
    ensures |log| >= 2 && log[0] == Line(Started, Info)
    ensures log[1] == Line(NoBreaches, Success) || log[1] == Line(BreachTotal(|Breaches(target)|), Critical)
    ensures |Breaches(target)| > 0 ==> log[2..] == BreachLines(Breaches(target))
  {
    var bs := Breaches(target);
    [Line(Started, Info)]
      + (if |bs| > 0 then [Line(BreachTotal(|bs|), Critical)] + BreachLines(bs)
         else [Line(NoBreaches, Success)])
  }

  /** The breach lines name exactly the breaches of the list and carry no total or clean line. */
  lemma {:induction false} BreachLinesMention(bs: seq<Breach>, b: Breach, n: nat)
    ensures Line(BreachedBy(b), Critical) in BreachLines(bs) <==> b in bs
    ensures Line(BreachTotal(n), Critical) !in BreachLines(bs)
    ensures Line(NoBreaches, Success) !in BreachLines(bs)
    decreases |bs|
  {
    if |bs| > 0 {
      BreachLinesMention(bs[1..], b, n);
      var head := [Line(BreachedBy(bs[0]), Critical), Line(Exposed(bs[0]), Warning)];
      assert BreachLines(bs) == head + BreachLines(bs[1..]);
      assert bs == [bs[0]] + bs[1..];
    }
  }

  /**
   The email scan reports the clean line exactly when no condition holds, a
   total exactly when one does, and that total is the breach count; each
   breach is named exactly when its condition holds.
   */
  lemma EmailVerdict(target: string, b: Breach, n: nat)
    ensures Line(NoBreaches, Success) in EmailLog(target) <==> |Breaches(target)| == 0
    ensures Line(BreachTotal(n), Critical) in EmailLog(target) <==> n == |Breaches(target)| > 0
    ensures Line(BreachedBy(b), Critical) in EmailLog(target) <==> b in Breaches(target)
    ensures |EmailLog(target)| == (if |Breaches(target)| == 0 then 2 else 2 + 2 * |Breaches(target)|)
  {
    var bs := Breaches(target);
    BreachLinesMention(bs, b, n);
    if |bs| > 0 {
      assert EmailLog(target) == [Line(Started, Info), Line(BreachTotal(|bs|), Critical)] + BreachLines(bs);
    } else {
      assert EmailLog(target) == [Line(Started, Info), Line(NoBreaches, Success)];
    }
  }

  // ----- Hash scan -----

  /** The hash prefix the simulated dictionary knows. */
  const KnownHashPrefix: string := "8d969eef"

  /** The lines `runHashScan` appends to its log. */
  function HashLog(target: string): (log: seq<Line>)
    ensures |log| == 2 && log[0] == Line(Started, Info)
    ensures log[1] == Line(Cracked, Critical) <==> StartsWith(target, KnownHashPrefix)
    ensures log[1] == Line(HashUnknown, Success) <==> !StartsWith(target, KnownHashPrefix)
  {
    [Line(Started, Info)]
      + (if StartsWith(target, "8d969eef") then [Line(Cracked, Critical)] else [Line(HashUnknown, Success)])
  }

  // ----- Image scan -----

  /** The lines `runImageScan` appends to its log. */
  function ImageLog(imageUrl: string): (log: seq<Line>)
    ensures |log| >= 2 && log[0] == Line(Started, Info)
    ensures Line(ImageMatched, Critical) in log <==> Contains(imageUrl, "profile")
    ensures Line(ExifHint, Warning) in log <==> Contains(imageUrl, "profile")
    ensures Line(ImageUnmatched, Success) in log <==> !Contains(imageUrl, "profile")
    ensures |log| == (if Contains(imageUrl, "profile") then 3 else 2)
    ensures Contains(imageUrl, "profile") ==> log[1] == Line(ImageMatched, Critical)
  {
    [Line(Started, Info)]
      + (if Contains(imageUrl, "profile")
         then [Line(ImageMatched, Critical), Line(ExifHint, Warning)]
         else [Line(ImageUnmatched, Success)])
  }

  // ----- The search button -----

  /** The four logs a search leaves behind (each cleared first), and the string the image scan ran on. */
  datatype SearchRun = SearchRun(imageInput: string, username: seq<Line>, email: seq<Line>,
                                 hash: seq<Line>, image: seq<Line>)

  datatype SearchOutcome = Ignored | Ran(run: SearchRun)

  /** `handleSearch`: nothing without a target; otherwise all four scans, the image scan on the selected image if there is one. */
  function HandleSearch(target: string, selectedImage: string): (o: SearchOutcome)
    ensures o.Ignored? <==> target == ""
    ensures o.Ran? ==> o.run.imageInput == (if selectedImage != "" then selectedImage else target)
    ensures o.Ran? ==>
              && o.run.username == UsernameLog(target)
              && o.run.email == EmailLog(target)
              && o.run.hash == HashLog(target)
              && o.run.image == ImageLog(o.run.imageInput)
  {
    if target == "" then Ignored
    else
      var imageInput := if selectedImage != "" then selectedImage else target;
      Ran(SearchRun(imageInput, UsernameLog(target), EmailLog(target), HashLog(target), ImageLog(imageInput)))
  }

  /**
   The "scan selected image" button calls `handleSearch` only when an image
   is selected, and `handleSearch` still needs a target: with a selected
   image but an empty target, nothing runs.
   */
  function ScanSelected(target: string, selectedImage: string): (o: SearchOutcome)
    ensures o.Ran? <==> selectedImage != "" && target != ""
    ensures o.Ran? ==> o.run.imageInput == selectedImage
  {
    if selectedImage != "" then HandleSearch(target, selectedImage) else Ignored
  }

  /**
   The image verdict of a search depends on the selected image alone when
   one is selected, and on the target otherwise.
   */
  lemma ImageVerdictSource(target: string, selectedImage: string)
    requires target != ""
    ensures Line(ImageMatched, Critical) in HandleSearch(target, selectedImage).run.image
            <==> Contains(if selectedImage != "" then selectedImage else target, "profile")
  {
  }
}

=== FILE: session.dfy ===
/**
 The component's connection state as a state machine: `initializeFirebase`
 moves it through `Initializing` and `Authenticating...` to `Connected`
 or, on any failure, to `Error` with the guest identity; once auth is
 ready and a database handle and user id exist, the gallery listener is
 attached and every snapshot delivery or delivery error sets the status
 and, on success, the gallery.
 */
module Session {

  import opened Optional
  import opened DbStatus
  import opened Gallery
  import opened Snapshot

  /** A value of `crypto.randomUUID()`: always 36 characters, so never empty. */
  type Uuid = s: string | |s| == 36 witness "00000000-0000-0000-0000-000000000000"

  /** The user id the component falls back to when initialisation or sign-in fails. */
  const Guest: string := "ANON_GUEST"

  /**
   The component state the listener and the gallery write depend on.
   `userId` is the empty string while it is `null`; `dbPresent` says whether
   the module-level `db` handle has been assigned.
   */
  datatype State = State(status: Status, userId: string, authReady: bool, dbPresent: bool, gallery: seq<Item>)

  /** The state on first render. */
  const Initial: State := State(Initializing, "", false, false, [])

  datatype Event =
    | InitStart                                  // the app, `db` and `auth` handles are created
    | AuthSuccess(currentUid: string, uuid: Uuid) // sign-in resolved; `currentUid` is "" when there is no current user
    | AuthFailure                                // anything in the try block threw
    | SnapshotOk(items: seq<Item>)               // the listener delivered the collection, as `ItemsOf` its documents
    | SnapshotError                              // the listener reported an error

  /** The listener effect's guard: it attaches only when all three hold. */
  predicate Listening(s: State)
  {
    s.authReady && s.dbPresent && s.userId != ""
  }

  /** The listener's guard is the gallery write's second guard without the target test. */
  lemma ListeningIsReady(s: State, target: string)
    ensures Ready(s.authReady, s.dbPresent, s.userId, target) <==> Listening(s) && target != ""
  {
  }

  /** `auth.currentUser?.uid || crypto.randomUUID()` */
  function ResolvedUserId(currentUid: string, uuid: Uuid): (id: string)
    ensures id != ""
    ensures currentUid != "" ==> id == currentUid
    ensures currentUid == "" ==> id == uuid
  {
    if currentUid != "" then currentUid else uuid
  }

  /** One event. Snapshot callbacks exist only while the listener is attached, so otherwise they change nothing. */
  function Step(s: State, e: Event): (s': State)
    ensures !Listening(s) && (e.SnapshotOk? || e.SnapshotError?) ==> s' == s
    ensures Listening(s) && e.SnapshotOk? ==>
              s' == s.(status := Connected, gallery := SortNewestFirst(e.items))
    ensures Listening(s) && e.SnapshotError? ==> s' == s.(status := Disconnected)
    ensures e.AuthFailure? ==> s'.status == Error && s'.userId == Guest && s'.authReady
    ensures e.AuthSuccess? ==>
              s'.status == Connected && s'.userId == ResolvedUserId(e.currentUid, e.uuid) && s'.authReady
    ensures !e.SnapshotOk? ==> s'.gallery == s.gallery
    ensures e.InitStart? ==>
              s'.status == Authenticating && s'.dbPresent && s'.userId == s.userId && s'.authReady == s.authReady
    ensures !e.InitStart? ==> s'.dbPresent == s.dbPresent
    ensures s.authReady ==> s'.authReady
  {
    match e
    case InitStart => s.(status := Authenticating, dbPresent := true)
    case AuthSuccess(currentUid, uuid) =>
      s.(userId := ResolvedUserId(currentUid, uuid), authReady := true, status := Connected)
    case AuthFailure => s.(userId := Guest, authReady := true, status := Error)
    case SnapshotOk(items) =>
      if !s.authReady || !s.dbPresent || s.userId == "" then s
      else s.(gallery := SortNewestFirst(items), status := Connected)
    case SnapshotError =>
      if !s.authReady || !s.dbPresent || s.userId == "" then s
      else s.(status := Disconnected)
  }

  /** The events in order. */
  function Run(s: State, events: seq<Event>): State
    decreases |events|
  {
    if |events| == 0 then s else Run(Step(s, events[0]), events[1..])
  }

  lemma {:induction false} RunAppend(s: State, a: seq<Event>, b: seq<Event>)
    ensures Run(s, a + b) == Run(Run(s, a), b)
    decreases |a|
  {
    if |a| == 0 {
      assert a + b == b;
    } else {
      assert (a + b)[1..] == a[1..] + b;
      RunAppend(Step(s, a[0]), a[1..], b);
    }
  }

  /**
   What holds in every state any sequence of events reaches: auth is ready
   exactly when there is a user id, `Authenticating...` always has a
   database handle, `Connected` always has auth ready, a `Disconnected` status or a
   non-empty gallery needs the listener, and the gallery is newest first.
   */
  predicate Inv(s: State)
  {
    && (s.authReady <==> s.userId != "")
    && (s.status == Authenticating ==> s.dbPresent)
    && (s.status == Connected ==> s.authReady)
    && (s.status == Disconnected ==> Listening(s))
    && (|s.gallery| > 0 ==> Listening(s))
    && NewestFirst(s.gallery)
  }

  lemma InitialInv()
    ensures Inv(Initial)
  {
  }

  lemma StepInv(s: State, e: Event)
    requires Inv(s)
    ensures Inv(Step(s, e))
  {
  }

  /** The invariant holds after any sequence of events from the initial state. */
  lemma {:induction false} RunInv(s: State, events: seq<Event>)
    requires Inv(s)
    ensures Inv(Run(s, events))
    decreases |events|
  {
    if |events| > 0 {
      StepInv(s, events[0]);
      RunInv(Step(s, events[0]), events[1..]);
    }
  }

  /** How `initializeFirebase` ends. */
  datatype BootOutcome =
    | SetupFailed                               // a throw before `db` was assigned
    | SignInFailed                              // `db` assigned, then sign-in threw
    | SignedIn(currentUid: string, uuid: Uuid)  // sign-in resolved

  /** The state changes `initializeFirebase` makes for each outcome. */
  function BootEvents(o: BootOutcome): seq<Event>
  {
    match o
    case SetupFailed => [AuthFailure]
    case SignInFailed => [InitStart, AuthFailure]
    case SignedIn(currentUid, uuid) => [InitStart, AuthSuccess(currentUid, uuid)]
  }

  /** One call of the listener: a snapshot, or an error. */
  datatype Delivery = Delivered(items: seq<Item>) | DeliveryFailed

  function EventOf(d: Delivery): Event
  {
    match d
    case Delivered(items) => SnapshotOk(items)
    case DeliveryFailed => SnapshotError
  }

  function DeliveryEvents(ds: seq<Delivery>): (es: seq<Event>)
    ensures |es| == |ds|
  {
    seq(|ds|, i requires 0 <= i < |ds| => EventOf(ds[i]))
  }

  /** A whole session: initialisation, then whatever the listener delivers. */
  function Lifetime(o: BootOutcome, ds: seq<Delivery>): seq<Event>
  {
    BootEvents(o) + DeliveryEvents(ds)
  }

  /** The items of the last successful delivery, if any. */
  function LastDelivered(ds: seq<Delivery>): Option<seq<Item>>
    decreases |ds|
  {
    if |ds| == 0 then None
    else if ds[|ds| - 1].Delivered? then Some(ds[|ds| - 1].items)
    else LastDelivered(ds[..|ds| - 1])
  }

  /**
   Auth is ready and a user id exists after initialisation, whichever way it
   ended; the status is `Connected` only after a sign-in, the guest id is
   used after a failure, and the listener attaches unless setup failed
   before the database handle existed.
   */
  lemma BootFacts(o: BootOutcome)
    ensures Run(Initial, BootEvents(o)).authReady
    ensures Run(Initial, BootEvents(o)).userId != ""
    ensures Run(Initial, BootEvents(o)).status == (if o.SignedIn? then Connected else Error)
    ensures !o.SignedIn? ==> Run(Initial, BootEvents(o)).userId == Guest
    ensures o.SignedIn? ==> Run(Initial, BootEvents(o)).userId == ResolvedUserId(o.currentUid, o.uuid)
    ensures Listening(Run(Initial, BootEvents(o))) <==> !o.SetupFailed?
    ensures Run(Initial, BootEvents(o)).gallery == []
  {
    var es := BootEvents(o);
    assert Run(Initial, es) == Run(Step(Initial, es[0]), es[1..]);
    if |es| == 2 {
      var s1 := Step(Initial, es[0]);
      assert es[1..] == [es[1]];
      assert Run(s1, [es[1]]) == Run(Step(s1, es[1]), []);
    }
  }

  /**
   From a state whose listener is attached, deliveries change only the
   status and the gallery: the status follows the last delivery, and the
   gallery is the last successful snapshot, newest first.
   */
  lemma {:induction false} DeliveriesWhileListening(s: State, ds: seq<Delivery>)
    requires Listening(s)
    ensures Run(s, DeliveryEvents(ds)).userId == s.userId
    ensures Listening(Run(s, DeliveryEvents(ds)))
    ensures |ds| > 0 ==>
              Run(s, DeliveryEvents(ds)).status == (if ds[|ds| - 1].Delivered? then Connected else Disconnected)
    ensures |ds| == 0 ==> Run(s, DeliveryEvents(ds)) == s
    ensures Run(s, DeliveryEvents(ds)).gallery ==
              (match LastDelivered(ds)
               case Some(items) => SortNewestFirst(items)
               case None => s.gallery)
    decreases |ds|
  {
    if |ds| > 0 {
      var init := ds[..|ds| - 1];
      var last := ds[|ds| - 1];
      assert DeliveryEvents(ds) == DeliveryEvents(init) + [EventOf(last)];
      RunAppend(s, DeliveryEvents(init), [EventOf(last)]);
      DeliveriesWhileListening(s, init);
      var mid := Run(s, DeliveryEvents(init));
      assert Run(mid, [EventOf(last)]) == Run(Step(mid, EventOf(last)), []);
    }
  }

  /** Without a listener, deliveries never arrive: nothing changes. */
  lemma {:induction false} DeliveriesWithoutListener(s: State, ds: seq<Delivery>)
    requires !Listening(s)
    ensures Run(s, DeliveryEvents(ds)) == s
    decreases |ds|
  {
    if |ds| > 0 {
      assert DeliveryEvents(ds)[1..] == DeliveryEvents(ds[1..]);
      DeliveriesWithoutListener(s, ds[1..]);
    }
  }

  /**
   If sign-in fails after the database handle was created, the guest
   identity still gets a listener, and a successful snapshot turns `Error`
   into `Connected`.
   */
  lemma GuestReconnects(ds: seq<Delivery>)
    requires |ds| > 0 && ds[|ds| - 1].Delivered?
    ensures Run(Initial, Lifetime(SignInFailed, ds)).status == Connected
    ensures Run(Initial, Lifetime(SignInFailed, ds)).userId == Guest
    ensures Run(Initial, Lifetime(SignInFailed, ds)).gallery == SortNewestFirst(ds[|ds| - 1].items)
  {
    RunAppend(Initial, BootEvents(SignInFailed), DeliveryEvents(ds));
    BootFacts(SignInFailed);
    DeliveriesWhileListening(Run(Initial, BootEvents(SignInFailed)), ds);
  }

  /** If setup fails before the database handle exists, the status stays `Error` and the gallery empty. */
  lemma SetupFailureIsFinal(ds: seq<Delivery>)
    ensures Run(Initial, Lifetime(SetupFailed, ds)).status == Error
    ensures Run(Initial, Lifetime(SetupFailed, ds)).gallery == []
    ensures Run(Initial, Lifetime(SetupFailed, ds)).userId == Guest
  {
    RunAppend(Initial, BootEvents(SetupFailed), DeliveryEvents(ds));
    BootFacts(SetupFailed);
    DeliveriesWithoutListener(Run(Initial, BootEvents(SetupFailed)), ds);
  }

  /** The gallery write as the component makes it from its current state. */
  function DecideIn(s: State, target: string, now: int): (d: Decision)
    ensures d.Write? ==> d.record.source == s.userId && Listening(s)
  {
    Decide(s.status, s.authReady, s.dbPresent, s.userId, target, now)
  }

  /**
   In every state a session reaches, the second guard can only fire on an
   empty target: whenever the status is `Connected`, auth is ready and the
   database handle and a user id exist. So the write succeeds exactly when
   the status is `Connected` and the target looks like an image.
   */
  lemma {:induction false} ConnectedMeansReady(o: BootOutcome, ds: seq<Delivery>, target: string, now: int)
    ensures var s := Run(Initial, Lifetime(o, ds));
            s.status == Connected ==> Listening(s)
    ensures var s := Run(Initial, Lifetime(o, ds));
            DecideIn(s, target, now).Write? <==> s.status == Connected && LooksLikeImage(target)
  {
    RunAppend(Initial, BootEvents(o), DeliveryEvents(ds));
    BootFacts(o);
    var b := Run(Initial, BootEvents(o));
    if Listening(b) {
      DeliveriesWhileListening(b, ds);
    } else {
      DeliveriesWithoutListener(b, ds);
    }
    WriteIff(Run(Initial, Lifetime(o, ds)).status, Run(Initial, Lifetime(o, ds)).authReady,
             Run(Initial, Lifetime(o, ds)).dbPresent, Run(Initial, Lifetime(o, ds)).userId, target, now);
  }

  /**
   The guest user id may write: after a failed sign-in and a
   successful snapshot, a valid target is written under `ANON_GUEST`.
   */
  lemma GuestMayWrite(ds: seq<Delivery>, target: string, now: int)
    requires |ds| > 0 && ds[|ds| - 1].Delivered?
    requires LooksLikeImage(target)
    ensures DecideIn(Run(Initial, Lifetime(SignInFailed, ds)), target, now) ==
              Write(Record(DisplayName(target), target, now, Guest))
  {
    GuestReconnects(ds);
    ConnectedMeansReady(SignInFailed, ds, target, now);
  }

  /**
   A record that was written shows up in the next snapshot that contains its
   document, wherever the document sits in the snapshot: the gallery then
   holds it, under the document's id.
   */
  lemma WrittenRecordAppears(s: State, target: string, now: int, ids: seq<string>, recs: seq<Record>, k: int)
    requires DecideIn(s, target, now).Write?
    requires |ids| == |recs|
    requires 0 <= k < |recs| && recs[k] == DecideIn(s, target, now).record
    ensures var s' := Step(s, SnapshotOk(ItemsOf(ids, recs)));
            ItemOf(ids[k], recs[k]) in s'.gallery && s'.status == Connected && WellFormed(recs[k])
    ensures Step(s, SnapshotOk(ItemsOf(ids, recs))).gallery == GalleryOf(ids, recs)
  {
    var items := ItemsOf(ids, recs);
    assert items[k] in multiset(items);
    WriteIff(s.status, s.authReady, s.dbPresent, s.userId, target, now);
  }
}

=== FILE: snapshot.dfy ===
/**
 What the gallery listener does with one snapshot: the documents become
 items and are sorted newest first with the comparator
 `(a, b) => b.timestamp - a.timestamp`. JavaScript's `Array.prototype.sort`
 is stable, so the result is the stable sort by descending timestamp, which
 is what the insertion sort below computes.
 */
module Snapshot {

  import opened Gallery

  /** Timestamps never increase from left to right. */
  predicate NewestFirst(s: seq<Item>)
  {
    forall i, j :: 0 <= i < j < |s| ==> s[i].timestamp >= s[j].timestamp
  }

  /** Every item of `s` is strictly newer than `t`. */
  predicate AllNewerThan(s: seq<Item>, t: int)
  {
    forall i :: 0 <= i < |s| ==> s[i].timestamp > t
  }

  /** The items of `s` whose timestamp is `t`, in the order they appear. */
  function WithTimestamp(s: seq<Item>, t: int): seq<Item>
  {
    if |s| == 0 then []
    else (if s[0].timestamp == t then [s[0]] else []) + WithTimestamp(s[1..], t)
  }

  /**
   Puts `x` in front of the first item that is not newer than it, so that
   `x` stays ahead of the items of its own timestamp already in `s`.
   */
  function Insert(x: Item, s: seq<Item>): (r: seq<Item>)
    requires NewestFirst(s)
    ensures NewestFirst(r)
    ensures multiset(r) == multiset(s) + multiset{x}
    ensures |r| == |s| + 1
    ensures r[0] == x || (|s| > 0 && r[0] == s[0])
  {
    if |s| == 0 || s[0].timestamp <= x.timestamp then [x] + s
    else
      var rest := Insert(x, s[1..]);
      assert s == [s[0]] + s[1..];
      assert rest[0].timestamp <= s[0].timestamp;
      [s[0]] + rest
  }

  /** The gallery as the listener stores it: the snapshot's items, newest first. */
  function SortNewestFirst(items: seq<Item>): (r: seq<Item>)
    ensures NewestFirst(r)
    ensures multiset(r) == multiset(items)
    ensures |r| == |items|
  {
    if |items| == 0 then []
    else
      assert items == [items[0]] + items[1..];
      Insert(items[0], SortNewestFirst(items[1..]))
  }

  /**
   `{ id: doc.id, ...doc.data() }` for every document of a snapshot, then the
   sort: the gallery the listener stores when the session's snapshot event
   carries `ItemsOf(ids, records)`.
   */
  function GalleryOf(ids: seq<string>, records: seq<Record>): (r: seq<Item>)
    requires |ids| == |records|
    ensures NewestFirst(r)
    ensures |r| == |records|
    ensures forall i :: 0 <= i < |records| ==> ItemOf(ids[i], records[i]) in r
    ensures multiset(r) == multiset(ItemsOf(ids, records))
  {
    var items := ItemsOf(ids, records);
    var r := SortNewestFirst(items);
    assert forall i :: 0 <= i < |items| ==> items[i] in multiset(items);
    r
  }

  /** The snapshot's documents as items, in snapshot order. */
  function ItemsOf(ids: seq<string>, records: seq<Record>): (items: seq<Item>)
    requires |ids| == |records|
    ensures |items| == |records|
    ensures forall i :: 0 <= i < |records| ==> items[i] == ItemOf(ids[i], records[i])
  {
    if |records| == 0 then []
    else [ItemOf(ids[0], records[0])] + ItemsOf(ids[1..], records[1..])
  }

  lemma {:induction false} WithTimestampAppend(a: seq<Item>, b: seq<Item>, t: int)
    ensures WithTimestamp(a + b, t) == WithTimestamp(a, t) + WithTimestamp(b, t)
    decreases |a|
  {
    if |a| == 0 {
      assert a + b == b;
    } else {
      assert (a + b)[1..] == a[1..] + b;
      WithTimestampAppend(a[1..], b, t);
    }
  }

  /** In a newest-first sequence, the items in front of the insertion point are all newer than `x`. */
  lemma {:induction false} InsertKeepsTies(x: Item, s: seq<Item>, t: int)
    requires NewestFirst(s)
    ensures WithTimestamp(Insert(x, s), t) == WithTimestamp([x], t) + WithTimestamp(s, t)
    decreases |s|
  {
    if |s| == 0 || s[0].timestamp <= x.timestamp {
      WithTimestampAppend([x], s, t);
    } else {
      var rest := Insert(x, s[1..]);
      InsertKeepsTies(x, s[1..], t);
      WithTimestampAppend([s[0]], rest, t);
      assert s == [s[0]] + s[1..];
      WithTimestampAppend([s[0]], s[1..], t);
      if s[0].timestamp == t {
        // then x is older than t, so it is not among the items of timestamp t
        assert WithTimestamp([x], t) == [];
      }
    }
  }

  /** The sort is stable: items sharing a timestamp keep their snapshot order. */
  lemma {:induction false} SortIsStable(items: seq<Item>, t: int)
    ensures WithTimestamp(SortNewestFirst(items), t) == WithTimestamp(items, t)
    decreases |items|
  {
    if |items| > 0 {
      var tail := SortNewestFirst(items[1..]);
      SortIsStable(items[1..], t);
      InsertKeepsTies(items[0], tail, t);
      assert items == [items[0]] + items[1..];
      WithTimestampAppend([items[0]], items[1..], t);
    }
  }

  /** A snapshot already newest first comes back unchanged. */
  lemma {:induction false} SortKeepsSorted(items: seq<Item>)
    requires NewestFirst(items)
    ensures SortNewestFirst(items) == items
    decreases |items|
  {
    if |items| > 0 {
      assert NewestFirst(items[1..]);
      SortKeepsSorted(items[1..]);
      assert items == [items[0]] + items[1..];
    }
  }

  /** Sorting twice is sorting once. */
  lemma SortIdempotent(items: seq<Item>)
    ensures SortNewestFirst(SortNewestFirst(items)) == SortNewestFirst(items)
  {
    SortKeepsSorted(SortNewestFirst(items));
  }

  /** The reverse of a sequence. */
  function Reverse(s: seq<Item>): (r: seq<Item>)
    ensures |r| == |s|
    ensures forall i :: 0 <= i < |s| ==> r[i] == s[|s| - 1 - i]
  {
    if |s| == 0 then [] else Reverse(s[1..]) + [s[0]]
  }

  /** Timestamps strictly increase from left to right, as for items appended one after another. */
  predicate StrictlyOlderFirst(s: seq<Item>)
  {
    forall i, j :: 0 <= i < j < |s| ==> s[i].timestamp < s[j].timestamp
  }

  /** Inserting an item older than everything puts it last. */
  lemma {:induction false} InsertOldest(x: Item, s: seq<Item>)
    requires NewestFirst(s)
    requires AllNewerThan(s, x.timestamp)
    ensures Insert(x, s) == s + [x]
    decreases |s|
  {
    if |s| > 0 {
      assert s[0].timestamp > x.timestamp;
      assert AllNewerThan(s[1..], x.timestamp);
      InsertOldest(x, s[1..]);
      assert s == [s[0]] + s[1..];
    }
  }

  /**
   Items written with strictly increasing timestamps and listed in that
   order come back in exactly the reverse order: newest first.
   */
  lemma {:induction false} SortReversesAppendOrder(items: seq<Item>)
    requires StrictlyOlderFirst(items)
    ensures SortNewestFirst(items) == Reverse(items)
    decreases |items|
  {
    if |items| > 0 {
      var tail := items[1..];
      assert StrictlyOlderFirst(tail);
      SortReversesAppendOrder(tail);
      var sortedTail := SortNewestFirst(tail);
      assert AllNewerThan(sortedTail, items[0].timestamp) by {
        forall i | 0 <= i < |sortedTail|
          ensures sortedTail[i].timestamp > items[0].timestamp
        {
          assert sortedTail[i] == tail[|tail| - 1 - i];
        }
      }
      InsertOldest(items[0], sortedTail);
    }
  }
}

=== FILE: text.dfy ===
/**
 The three string tests the dashboard relies on: JavaScript's
 `String.prototype.startsWith`, `endsWith` and `includes`, over strings
 modelled as `seq<char>`. A Dafny `char` is a Unicode scalar value, whereas
 JavaScript strings are sequences of UTF-16 code units, so a character
 outside the Basic Multilingual Plane is one element here and two there.
 */
module Text {

  /** `s.startsWith(p)` */
  predicate StartsWith(s: string, p: string)
  {
    |p| <= |s| && s[..|p|] == p
  }

  /** `s.endsWith(p)` */
  predicate EndsWith(s: string, p: string)
  {
    |p| <= |s| && s[|s| - |p|..] == p
  }

  /** `startsWith` is "`s` is `p` followed by something". */
  lemma StartsWithIffPrefix(s: string, p: string)
    ensures StartsWith(s, p) <==> exists r :: s == p + r
  {
    if StartsWith(s, p) {
      assert s == p + s[|p|..];
    }
  }

  /** `endsWith` is "`s` is something followed by `p`". */
  lemma EndsWithIffSuffix(s: string, p: string)
    ensures EndsWith(s, p) <==> exists f :: s == f + p
  {
    if EndsWith(s, p) {
      assert s == s[..|s| - |p|] + p;
    }
    if exists f :: s == f + p {
      var f :| s == f + p;
      assert s[|s| - |p|..] == p;
    }
  }

  /** `p` occurs in `s` starting at index `i`. */
  predicate OccursAt(s: string, p: string, i: int)
  {
    0 <= i && i + |p| <= |s| && s[i..i + |p|] == p
  }

  /** `s.includes(p)`, computed by scanning `s` from the left. */
  predicate Contains(s: string, p: string)
    decreases |s|
  {
    if |s| < |p| then false
    else if StartsWith(s, p) then true
    else Contains(s[1..], p)
  }

  /** The scan agrees with the declarative reading: `p` occurs somewhere in `s`. */
  lemma {:induction false} ContainsIffOccurs(s: string, p: string)
    ensures Contains(s, p) <==> exists i :: OccursAt(s, p, i)
    decreases |s|
  {
    if |s| < |p| {
    } else if StartsWith(s, p) {
      assert OccursAt(s, p, 0);
    } else {
      ContainsIffOccurs(s[1..], p);
      if Contains(s[1..], p) {
        var i :| OccursAt(s[1..], p, i);
        assert s[i + 1..i + 1 + |p|] == s[1..][i..i + |p|];
        assert OccursAt(s, p, i + 1);
      }
      if exists i :: OccursAt(s, p, i) {
        var i :| OccursAt(s, p, i);
        assert i != 0;
        assert s[1..][i - 1..i - 1 + |p|] == s[i..i + |p|];
        assert OccursAt(s[1..], p, i - 1);
      }
    }
  }
}
